=== FILE: README.md ===
# Muhtawaa service worker and article list, in Dafny

This project models the core of the Muhtawaa Arabic content site.

- **The service worker** (`sw.js`):
  - which requests it answers;
  - how `handleFetch` routes a URL to one of three cache strategies (network first, cache first, stale-while-revalidate) and falls back to the offline page;
  - how `activate` evicts old cache generations;
  - how a background sync replays the IndexedDB outbox;
  - how the `CLEANUP` and `SKIP_WAITING` messages act.
- **The page script** (`script.js`):
  - the search and category filters and the popularity sort;
  - the first page and "load more" paging, and the load-more button;
  - the like and bookmark flags in local storage;
  - the category colours.

Everything is pure functions over immutable values:

- a cache is a `map` from request URL to response;
- the outbox is a sequence in key order;
- the page state is one record;
- each handler maps a state to a state.

The network, the clock and the browser's URL parser are parameters:

- a `FetchOutcome` says whether a fetch responded or failed;
- `now` is the time in milliseconds;
- `parsed` is the URL parser's result, or `None` when it throws;
- `resolved` is the set of outbox keys whose POST resolves.

Modules:

- `Seqs`: filtering, JS-style slicing and an insertion sort on sequences that keeps equal keys in input order, as JavaScript's `Array.prototype.sort` does.
- `Strings`: prefixes, suffixes, substrings, ASCII lower-casing, JS `trim`, extensions.
- `Http`: requests, responses, fetch outcomes and caches.
- `Strategies`: the three strategies.
- `Router`: gating, routing, fallback and the fetch listener.
- `Outbox`: replay and cleanup.
- `Lifecycle`: activation and messages.
- `Articles`: search, category filter, sort and colours.
- `App`: the page state and its handlers.

## Model

| member | source | states |
|---|---|---|
| Strategies.NetworkFirst | sw.js:140-162 | The network's response, ok or not, is returned. Only an ok response that `Cache.put` accepts, which excludes a partial (206) one, is stored, and only under the request's key. On a failed fetch the cached entry is served exactly when there is one; otherwise the failure is passed on. It never resolves to nothing. |
| Strategies.CacheFirst | sw.js:165-186 | A hit is served with the cache unchanged. A miss is served from the network, storing only an ok response that `Cache.put` accepts. The result fails exactly on a miss with a failed fetch. A response is never made up. |
| Strategies.StaleWhileRevalidateAsWritten | sw.js:189-205 | A hit serves the stale entry while an ok network response replaces it. A miss whose fetch responds is served that response. The result is "resolved with no response" exactly on a miss whose fetch fails. |
| Strategies.StaleWhileRevalidate | sw.js:189-205 | With the source's cache discipline, a miss whose fetch responds is served that response, a miss whose fetch fails is a failure for the caller's fallback, and nothing resolves to no response. |
| Strategies.CacheFirstKeepsServingStored | sw.js:165-186 | Once a cache-first miss has stored an ok response, a later request for the same key is served that response from an unchanged cache whatever the network does. |
| Strategies.NetworkFirstOfflineServesLastOk | sw.js:140-162 | After network first got an ok response, the same request made offline is served that response. |
| Strategies.PartialResponseNotCached | sw.js:175-181 | An ok partial (206) response reaches the page but is not stored, so the next cache-first request for it, made offline, fails. |
| Strategies.RevalidatedEntryServedNext | sw.js:189-205 | A revalidated hit serves the stale entry. The next request, even offline, is served the fresh ok response. |
| Router.HasStaticExtension | sw.js:208-211 | The loop over the twelve extensions answers true exactly when the path ends with one of them. |
| Router.StaticAssetByExtension | sw.js:208-211 | A path is a static asset exactly when the text after its last dot is one of the twelve extension names. |
| Router.HtmlIsNotStatic | sw.js:209-210 | A path ending in `.html` is never a static asset. |
| Router.Route | sw.js:107-123 | An API path or a `timestamp` parameter gives network first. Otherwise a static asset gives cache first, an article path or the root gives stale-while-revalidate, and anything else gives network first. Each case is an if-and-only-if. |
| Router.ApiScriptGoesToNetwork | sw.js:108-114 | `/api/widget.js` ends in a static extension, yet goes to network first. `/widget.js` goes to cache first. |
| Router.ArticlePageRoute | sw.js:117-119 | An article page such as `/articles/new.html` goes to stale-while-revalidate. |
| Router.Fallback | sw.js:125-136 | A navigation gets the cached offline page, or the text `Offline` when that page is not cached. Any other request gets a 503. |
| Router.OnFetch | sw.js:88-137 | The listener with the corrected stale-while-revalidate. Only a GET request that is not a `chrome-extension://` URL is answered. An unparsable URL fails with the cache unchanged. A parsable one gets the network's response when the route is network first or nothing is cached, the cached entry when the route serves the cache or the network is down, and the fallback when neither exists. A cacheable network response is stored under the request's key unless the request was a cache-first hit, which leaves the cache unchanged, and the cache changes in no other way. |
| Router.OnFetchAsWritten | sw.js:88-137 | The listener as written answers the same requests as the corrected one and agrees with it everywhere except on a stale-while-revalidate miss with a failed fetch, where the page gets a network error and the cache is unchanged. |
| Router.OfflineFallback | sw.js:125-136 | Offline with nothing cached for the request, whatever strategy the URL selects: a navigation gets the offline page, or `Offline`, and any other request gets a 503. The cache is left unchanged. |
| Router.OfflinePageNavigationAsWritten | sw.js:199-204 | For every offline navigation routed to stale-while-revalidate on a miss, with the offline page cached: the source's handler gives the page a network error, while the corrected one serves the offline page. |
| Router.OfflineArticleNavigationAsWritten | sw.js:117-131 | The concrete instance: `/articles/new.html` requested offline at `https://example.org`. |
| Outbox.SyncEndpoint | sw.js:217-223 | Exactly the tags `contact-form` and `article-interaction` trigger a replay, to `/api/contact` and `/api/articles/interaction` respectively. |
| Outbox.Replay | sw.js:227-258 | The corrected sync, with the store's items actually read: the outbox afterwards is the original one, in order, without exactly the items of the tag whose POST resolved. Keys stay ascending. The POSTs sent are the tag's items' payloads, in key order. |
| Outbox.ReplayItem | sw.js:234-253 | One iteration of the replay. It moves the live outbox and the POSTs sent from the state after `i` snapshot items to the state after `i + 1`. |
| Outbox.ReplayStepRemaining | sw.js:245-247 | Deleting a delivered item's key from the live outbox equals dropping that item from the snapshot. An undelivered item leaves the live outbox unchanged. |
| Outbox.DeleteDeliveredItem | sw.js:246-247 | Because keys ascend, deleting item `i`'s key removes exactly that item from the live outbox. |
| Outbox.SubseqKeepsKeysAscending | sw.js:370 | Any order-preserving selection from the auto-incremented store keeps its keys ascending and draws its items from the store. |
| Outbox.OnSync | sw.js:214-224 | A known tag runs the corrected replay of its items, posting `contact-form` items to `/api/contact` and `article-interaction` items to `/api/articles/interaction`. Any other tag changes nothing and sends nothing. |
| Outbox.ReplayAsWritten | sw.js:227-234 | As written, `await store.getAll()` yields the request object, the loop over it throws and the `catch` swallows it, so the outbox is unchanged and nothing is posted. |
| Outbox.ReplayAsWrittenKeepsDeliverable | sw.js:232-247 | An item of the tag whose POST would resolve is posted and removed by the corrected replay but stays unsent in the outbox as written. |
| Outbox.ReplayTwice | sw.js:261-292 | Replaying the same tag again with the same delivery outcomes deletes nothing more, and the second replay's items of the tag are exactly those whose POST did not resolve. |
| Outbox.Cleanup | sw.js:390-408 | The corrected cleanup, with the old keys actually read: an item is kept exactly when its timestamp is after `now` minus seven days, so an item exactly seven days old is deleted. The kept items stay in order and their keys stay ascending. |
| Outbox.CleanupAsWritten | sw.js:398-406 | As written, `await getAllKeys(...)` yields the request object, the loop over it throws and the `catch` swallows it, so the outbox is unchanged. |
| Outbox.CleanupAsWrittenKeepsStale | sw.js:397-401 | An item seven days old or older is removed by the corrected cleanup but survives the cleanup as written. |
| Lifecycle.Activate | sw.js:66-72 | The caches left are exactly the current generation, if it existed. Its contents are untouched. At most one cache remains. |
| Lifecycle.ActivateIdempotent | sw.js:66-72 | Activating twice evicts nothing more than activating once. |
| Lifecycle.OnMessage | sw.js:384-415 | `SKIP_WAITING` is requested exactly for that message type. `CLEANUP` runs the corrected cleanup, keeping exactly the outbox items newer than seven days. Any other message leaves the outbox alone. |
| Strings.Lower | script.js:278 | Lower-casing keeps the length, maps each ASCII capital to its small letter, and changes no other character. |
| Strings.Trim | script.js:278 | The result is the input with its surrounding white space removed. The input is the result padded only by white space, and the result neither starts nor ends with white space. It is empty exactly when the input is all white space. |
| Seqs.SortBy | script.js:325 | The sort returns a permutation of its input in non-decreasing key order, with the elements of each key in their input order. |
| Seqs.InsertKeepsTies | script.js:325 | Inserting into a sorted list puts the new element before every element with its key, so each key's elements keep their order. |
| Articles.SearchResults | script.js:277-291 | An empty query after lower-casing and trimming gives every article. Otherwise the result is a subsequence of the feed holding exactly the articles whose title, excerpt, a tag or category contains the query, each as often as in the feed. |
| Articles.BlankSearchShowsAll | script.js:278-283 | An input of only white space shows every article. |
| Articles.CategoryResults | script.js:299-308 | `all` gives every article. Otherwise the result is a subsequence holding exactly that category's articles, each as often as in the feed. |
| Articles.SortModeOf | script.js:323-341 | `popular`, `readTime` and `title` select their orders. Every other value, `date` included, sorts by date. |
| Articles.SortArticles | script.js:321-341 | The sort is a permutation of the filtered list: by popularity non-increasing in views plus likes, otherwise non-decreasing in the rank, with ties in the order of the list being sorted. |
| Articles.EqualPopularityKeepsFeedOrder | script.js:324-325 | A list of articles that all have the same views plus likes comes out of the popularity sort unchanged. |
| Articles.GetCategoryColor | script.js:498-510 | A known category gets its own colour. The default colour comes back exactly for unknown categories and for the technology category, which shares it. |
| Articles.ColoursCoverSelector | script.js:90-100 | The colour table's categories are exactly the categories the selector offers. |
| App.DisplayInitial | script.js:139-152 | The shown list restarts as the first six filtered articles, or all of them when fewer. Nothing else changes. |
| App.LoadMore | script.js:349-374 | The shown list only grows. When it was a prefix of the filtered list, it stays one and grows by three or up to the end. |
| App.LoadMoreTimesLength | script.js:353-358 | After `n` clicks the shown list is the prefix of the filtered list that is `3n` longer, or the whole list. |
| App.LoadMoreButtonOf | script.js:377-391 | The button is shown exactly while fewer articles are shown than filtered, with the number still hidden. |
| App.LoadMoreShrinksRemaining | script.js:381-390 | Each click lowers the remaining count by three, or hides the button when three or fewer remained. A hidden button stays hidden. |
| App.ButtonHiddenAfterEnoughClicks | script.js:381-390 | Enough clicks to cover the filtered list hide the button. |
| App.ApplySortAndDisplay | script.js:321-346 | The filtered list is stably sorted into the selected order, non-increasing popularity for `popular`, and its first six articles, or all when fewer, are shown. Feed, filter, sort choice and flags are unchanged. |
| App.HandleSearch | script.js:277-296 | The filtered list is the search results over the whole feed, stably sorted in the selected order, without the selected category applied. Its first six articles, or all when fewer, are shown. |
| App.HandleCategoryFilter | script.js:299-312 | The selected category is remembered. The filtered list is that category's articles stably sorted in the selected order, and its first six, or all when fewer, are shown. |
| App.HandleSortFilter | script.js:315-318 | The selected order is remembered, and the filtered list is stably re-sorted into it without losing or gaining articles. |
| App.ClearAllFilters | script.js:479-495 | Category `all` and date order are selected, and the filtered list is the whole feed stably sorted by date. |
| App.SetFlag | script.js:609-617 | Setting stores the key as true; clearing deletes it. No other key changes. |
| App.SetThenClear | script.js:609-627 | Setting and then clearing a flag is the same as clearing it. On a key that was unset, the map is restored. |
| App.SaveLikeStatus | script.js:609-617 | A like stores `true` under the article, an unlike deletes its key, other articles' likes keep their values, and the bookmarks and the rest of the state are untouched. |
| App.SaveBookmarkStatus | script.js:619-627 | A bookmark stores `true` under the article, removing it deletes its key, other articles' bookmarks keep their values, and the likes and the rest of the state are untouched. |
| App.HandleKeepsConsistent | script.js:277-374 | Every handler keeps the shown list a prefix of the filtered list and the filtered list drawn from the feed. No handler changes the feed. |

## Left out

- Install handler (`cache.addAll` of the static and article lists), `clients.claim`, the push and notification-click handlers, and `openDB`'s store creation: they touch only browser services whose behaviour is not part of these decisions.
- `openDB` or transaction failure in replay and cleanup, and a failing `delete` after a resolved POST: the model takes the database to be available. A failed open leaves the outbox unchanged in the source, which the model does not represent.
- `self.skipWaiting()` itself: `Lifecycle.OnMessage` only reports that it was requested.
- URL parsing and percent-decoding: `parsed` is the parser's result, given as input. The cache key is the request URL alone; `Vary` and the HTTP method play no part, since only GET reaches the cache.
- URL fragments in cache keys: the key is the request URL as given. Cache matching ignores a URL fragment, so `/a.html#x` and `/a.html` share one entry in the browser but are two keys in the model.
- `caches.open` creating the cache as a side effect: it changes nothing that is served in the modelled cases.
- Every cache write is taken to land before the next request arrives: stale-while-revalidate's background fetch and its `cache.put`, and the `cache.put` of network first and cache first, which is not awaited either. So the stored entry is visible to the next request. The interleaving of concurrent requests is not modelled.
- Strings.Lower: lower-cases ASCII letters only. JavaScript's `toLowerCase` maps every Unicode letter; the Arabic script has no case, so the categories and titles of the feed are unaffected.
- Articles.SortArticles: the date, reading-time and title orders depend on `Date` parsing, `parseInt` and Arabic locale collation. They are given by a `rank` argument rather than computed.
- Articles.GetCategoryColor: the colour table is a `map`. A category named after an inherited object property, such as `constructor`, which the JavaScript object lookup would find, is not modelled; the same holds for the like and bookmark objects.
- `formatNumber`, `renderArticles`, the toasts, the loading indicator, the debounce timer and the 800 ms "load more" delay: presentation and timing only.
- `loadArticlesData` and the fallback article list: the feed is an input.
- `currentPage`, which is reset but never read, and the early returns of `displayInitialArticles` and `updateLoadMoreButton` when their DOM element is missing: the state update does not depend on them, except that a missing grid skips the reset of the shown list.

## Findings

| source | as written | input that shows it | evidently intended | confidence | as-written member | corrected member |
|---|---|---|---|---|---|---|
| sw.js:194-204 | The background fetch's `catch` logs the error and returns nothing. On a cache miss, `cachedResponse \|\| await fetchPromise` therefore resolves with `undefined`, `handleFetch`'s `catch` never runs, and `respondWith` receives no response. | An offline navigation to `/articles/new.html` with no cached copy, while `/offline.html` is cached. | A failed fetch on a miss should reach `handleFetch`'s offline fallback, serving the offline page to a navigation and a 503 to anything else. | not executed | Strategies.StaleWhileRevalidateAsWritten in Router.OnFetchAsWritten, shown by Router.OfflinePageNavigationAsWritten and Router.OfflineArticleNavigationAsWritten | Strategies.StaleWhileRevalidate, used by Router.OnFetch (Router.OfflineFallback) |
| sw.js:232-268 | `store.getAll()` returns an `IDBRequest`, not a promise, so `await` yields the request object. The `for...of` over it throws a TypeError before the first item, and the outer `catch` swallows it. Neither sync posts or deletes anything. | A `contact-form` sync with one queued contact-form item whose POST would resolve. | The sync reads the store's items, posts each item of the tag, and deletes those whose POST resolved. | not executed | Outbox.ReplayAsWritten, shown by Outbox.ReplayAsWrittenKeepsDeliverable | Outbox.Replay, used by Outbox.OnSync |
| sw.js:398-400 | `index.getAllKeys(...)` also returns an `IDBRequest`, so the `for...of` over the awaited value throws and the `catch` swallows it. Nothing is deleted. | A `CLEANUP` message while the outbox holds an item queued eight days earlier. | Every item at or before the cut-off is deleted; `IDBKeyRange.upperBound` is inclusive, so an item exactly seven days old goes too. | not executed | Outbox.CleanupAsWritten, shown by Outbox.CleanupAsWrittenKeepsStale | Outbox.Cleanup, used by Lifecycle.OnMessage |

=== FILE: app.dfy ===
/** The page script's state (script.js lines 1-16) as one record, and the
    handlers that change it: search, category and sort selection, clearing
    the filters, paging with "load more", and the like and bookmark flags
    kept in local storage. */
module App {

  import opened Seqs
  import opened Articles

  /** `APP_CONFIG.articlesPerPage`: the size of the first page. */
  const ARTICLES_PER_PAGE := 6
  /** `APP_CONFIG.loadMoreIncrement`: how many articles one click adds. */
  const LOAD_MORE_INCREMENT := 3

  /** `allArticles`, `filteredArticles`, `displayedArticles`,
      `currentFilter`, `currentSort`, and the decoded `articleLikes` and
      `articleBookmarks` local-storage objects. */
  datatype AppState = AppState(all: seq<Article>, filtered: seq<Article>, displayed: seq<Article>,
                               currentFilter: string, currentSort: SortMode,
                               likes: map<string, bool>, bookmarks: map<string, bool>)

  // ---- Paging ---------------------------------------------------------

  /** `displayInitialArticles`: the shown list restarts as the first page of
      the filtered list; nothing else changes. */
  function DisplayInitial(st: AppState): (r: AppState)
    ensures r == st.(displayed := r.displayed)
    ensures IsPrefix(r.displayed, st.filtered)
    ensures |r.displayed| == Min(ARTICLES_PER_PAGE, |st.filtered|)
  {
    st.(displayed := Slice(st.filtered, 0, ARTICLES_PER_PAGE))
  }

  /** The debounced body of `loadMoreArticles`: the next
      `LOAD_MORE_INCREMENT` filtered articles after the shown ones are
      appended. The shown list only grows, and when it was a prefix of the
      filtered list it stays one, grown by three or up to the end. */
  function LoadMore(st: AppState): (r: AppState)
    ensures r == st.(displayed := r.displayed)
    ensures IsPrefix(st.displayed, r.displayed)
    ensures IsPrefix(st.displayed, st.filtered) ==>
              && IsPrefix(r.displayed, st.filtered)
              && |r.displayed| == Min(|st.displayed| + LOAD_MORE_INCREMENT, |st.filtered|)
  {
    var start := |st.displayed|;
    var more := Slice(st.filtered, start, start + LOAD_MORE_INCREMENT);
    if |more| > 0 then st.(displayed := st.displayed + more) else st
  }

  /** `n` clicks on "load more". */
  function LoadMoreTimes(st: AppState, n: nat): AppState
  {
    if n == 0 then st else LoadMore(LoadMoreTimes(st, n - 1))
  }

  /** After `n` clicks from a prefix, the shown list is the prefix of the
      filtered list that is `3n` longer, or all of it. */
  lemma {:induction false} LoadMoreTimesLength(st: AppState, n: nat)
    requires IsPrefix(st.displayed, st.filtered)
    ensures var r := LoadMoreTimes(st, n);
            && r.filtered == st.filtered
            && IsPrefix(r.displayed, st.filtered)
            && |r.displayed| == Min(|st.displayed| + LOAD_MORE_INCREMENT * n, |st.filtered|)
  {
    if n > 0 {
      LoadMoreTimesLength(st, n - 1);
      var prev := LoadMoreTimes(st, n - 1);
      assert LoadMoreTimes(st, n) == LoadMore(prev);
      assert LOAD_MORE_INCREMENT * n == LOAD_MORE_INCREMENT * (n - 1) + LOAD_MORE_INCREMENT;
    }
  }

  /** The "load more" button. */
  datatype LoadMoreButton = Hidden | Shown(remaining: nat)

  /** `updateLoadMoreButton`: shown, with the number of articles not yet
      shown, exactly while fewer articles are shown than filtered. */
  function LoadMoreButtonOf(st: AppState): (b: LoadMoreButton)
    ensures b.Shown? <==> |st.displayed| < |st.filtered|
    ensures b.Shown? ==> b.remaining == |st.filtered| - |st.displayed|
  {
    if |st.displayed| < |st.filtered| then Shown(|st.filtered| - |st.displayed|) else Hidden
  }

  /** Each click takes three off the remaining count, or hides the button
      when three or fewer remained. */
  lemma LoadMoreShrinksRemaining(st: AppState)
    requires IsPrefix(st.displayed, st.filtered)
    ensures var before := LoadMoreButtonOf(st);
            var after := LoadMoreButtonOf(LoadMore(st));
            && (before.Hidden? ==> after.Hidden?)
            && (before.Shown? && before.remaining <= LOAD_MORE_INCREMENT ==> after.Hidden?)
            && (before.Shown? && before.remaining > LOAD_MORE_INCREMENT ==>
                  after == Shown(before.remaining - LOAD_MORE_INCREMENT))
  {
  }

  /** From the first page, enough clicks hide the button. */
  lemma ButtonHiddenAfterEnoughClicks(st: AppState, n: nat)
    requires IsPrefix(st.displayed, st.filtered)
    requires |st.displayed| + LOAD_MORE_INCREMENT * n >= |st.filtered|
    ensures LoadMoreButtonOf(LoadMoreTimes(st, n)) == Hidden
  {
    LoadMoreTimesLength(st, n);
  }

  // ---- Filtering and sorting ------------------------------------------

  /** The shown list is the first page of the filtered list: its first
      `ARTICLES_PER_PAGE` articles, or all of them when there are fewer. */
  predicate ShowsFirstPage(st: AppState)
  {
    IsPrefix(st.displayed, st.filtered) && |st.displayed| == Min(ARTICLES_PER_PAGE, |st.filtered|)
  }

  /** `applySortAndDisplay`: the filtered list is put in the current sort
      order (the non-popularity orders given by `rank`), and the first page
      of it is shown. */
  function ApplySortAndDisplay(st: AppState, rank: Article -> int): (r: AppState)
    ensures r.all == st.all && r.currentFilter == st.currentFilter && r.currentSort == st.currentSort
    ensures r.likes == st.likes && r.bookmarks == st.bookmarks
    ensures SortedAs(r.filtered, st.filtered, st.currentSort, rank)
    ensures st.currentSort == ByPopularity ==>
              forall i, j :: 0 <= i < j < |r.filtered| ==> Popularity(r.filtered[i]) >= Popularity(r.filtered[j])
    ensures ShowsFirstPage(r)
  {
    DisplayInitial(st.(filtered := SortArticles(st.filtered, st.currentSort, rank)))
  }

  /** The debounced body of `handleSearch`: the filtered list becomes the
      search results over all articles (the selected category is not
      applied) in the current sort order, and its first page is shown. */
  function HandleSearch(st: AppState, input: string, rank: Article -> int): (r: AppState)
    ensures SortedAs(r.filtered, SearchResults(st.all, input), st.currentSort, rank)
    ensures ShowsFirstPage(r)
    ensures r.all == st.all && r.currentFilter == st.currentFilter && r.currentSort == st.currentSort
    ensures r.likes == st.likes && r.bookmarks == st.bookmarks
  {
    ApplySortAndDisplay(st.(filtered := SearchResults(st.all, input)), rank)
  }

  /** `handleCategoryFilter`: the selected value is remembered and the
      filtered list becomes that category's articles (any search is
      dropped) in the current sort order, and its first page is shown. */
  function HandleCategoryFilter(st: AppState, value: string, rank: Article -> int): (r: AppState)
    ensures r.currentFilter == value
    ensures SortedAs(r.filtered, CategoryResults(st.all, value), st.currentSort, rank)
    ensures ShowsFirstPage(r)
    ensures r.all == st.all && r.currentSort == st.currentSort
    ensures r.likes == st.likes && r.bookmarks == st.bookmarks
  {
    ApplySortAndDisplay(st.(currentFilter := value, filtered := CategoryResults(st.all, value)), rank)
  }

  /** `handleSortFilter`: the selected order is remembered, the current
      filtered list is put in that order, and its first page is shown. */
  function HandleSortFilter(st: AppState, value: string, rank: Article -> int): (r: AppState)
    ensures r.currentSort == SortModeOf(value)
    ensures SortedAs(r.filtered, st.filtered, SortModeOf(value), rank)
    ensures ShowsFirstPage(r)
    ensures r.all == st.all && r.currentFilter == st.currentFilter
    ensures r.likes == st.likes && r.bookmarks == st.bookmarks
  {
    ApplySortAndDisplay(st.(currentSort := SortModeOf(value)), rank)
  }

  /** `clearAllFilters`: category `all`, date order, every article in date
      order, first page shown. */
  function ClearAllFilters(st: AppState, rank: Article -> int): (r: AppState)
    ensures r.currentFilter == "all" && r.currentSort == ByDate
    ensures SortedAs(r.filtered, st.all, ByDate, rank)
    ensures ShowsFirstPage(r)
    ensures r.all == st.all && r.likes == st.likes && r.bookmarks == st.bookmarks
  {
    ApplySortAndDisplay(st.(currentFilter := "all", currentSort := ByDate, filtered := st.all), rank)
  }

  // ---- Likes and bookmarks --------------------------------------------

  /** One stored flag: `on` stores `key` as true, otherwise deletes it; no
      other key changes. */
  function SetFlag(m: map<string, bool>, key: string, on: bool): (r: map<string, bool>)
    ensures key in r <==> on
    ensures on ==> r[key]
    ensures forall k :: k != key ==> (k in r <==> k in m)
    ensures forall k :: k != key && k in r ==> r[k] == m[k]
  {
    if on then m[key := true] else m - {key}
  }

  /** Setting a flag and clearing it again leaves the map as if the flag had
      only been cleared; on a key that was unset, as it was. */
  lemma SetThenClear(m: map<string, bool>, key: string)
    ensures SetFlag(SetFlag(m, key, true), key, false) == SetFlag(m, key, false)
    ensures key !in m ==> SetFlag(SetFlag(m, key, true), key, false) == m
  {
  }

  /** `saveLikeStatus`. */
  function SaveLikeStatus(st: AppState, articleId: string, liked: bool): (r: AppState)
    ensures r == st.(likes := r.likes)
    ensures articleId in r.likes <==> liked
    ensures liked ==> r.likes[articleId]
    ensures forall k :: k != articleId ==> (k in r.likes <==> k in st.likes)
    ensures forall k :: k != articleId && k in r.likes ==> r.likes[k] == st.likes[k]
  {
    st.(likes := SetFlag(st.likes, articleId, liked))
  }

  /** `saveBookmarkStatus`. */
  function SaveBookmarkStatus(st: AppState, articleId: string, bookmarked: bool): (r: AppState)
    ensures r == st.(bookmarks := r.bookmarks)
    ensures articleId in r.bookmarks <==> bookmarked
    ensures bookmarked ==> r.bookmarks[articleId]
    ensures forall k :: k != articleId ==> (k in r.bookmarks <==> k in st.bookmarks)
    ensures forall k :: k != articleId && k in r.bookmarks ==> r.bookmarks[k] == st.bookmarks[k]
  {
    st.(bookmarks := SetFlag(st.bookmarks, articleId, bookmarked))
  }

  // ---- The page as a whole --------------------------------------------

  /** The user actions the handlers respond to. `Like` and `Bookmark` carry
      the new status, the negation of what the button showed. */
  datatype Event =
    | Search(input: string)
    | SelectCategory(value: string)
    | SelectSort(value: string)
    | ClearFilters
    | LoadMoreClicked
    | Like(articleId: string, liked: bool)
    | Bookmark(articleId: string, bookmarked: bool)

  function Handle(st: AppState, ev: Event, rank: Article -> int): AppState
  {
    match ev
    case Search(input) => HandleSearch(st, input, rank)
    case SelectCategory(value) => HandleCategoryFilter(st, value, rank)
    case SelectSort(value) => HandleSortFilter(st, value, rank)
    case ClearFilters => ClearAllFilters(st, rank)
    case LoadMoreClicked => LoadMore(st)
    case Like(id, liked) => SaveLikeStatus(st, id, liked)
    case Bookmark(id, on) => SaveBookmarkStatus(st, id, on)
  }

  /** What the page keeps true: the shown articles are a prefix of the
      filtered ones, and the filtered ones are drawn from the feed. */
  ghost predicate Consistent(st: AppState)
  {
    IsPrefix(st.displayed, st.filtered) && multiset(st.filtered) <= multiset(st.all)
  }

  /** Every handler keeps the page consistent, and none changes the feed. */
  lemma HandleKeepsConsistent(st: AppState, ev: Event, rank: Article -> int)
    requires Consistent(st)
    ensures Consistent(Handle(st, ev, rank))
    ensures Handle(st, ev, rank).all == st.all
  {
    match ev
    case Search(input) =>
      assert multiset(SearchResults(st.all, input)) <= multiset(st.all);
    case SelectCategory(value) =>
      assert multiset(CategoryResults(st.all, value)) <= multiset(st.all);
    case _ =>
  }

}

=== FILE: articles.dfy ===
/** The article list logic of the page script (script.js): the search and
    category filters, the popularity sort and the category colours. */
module Articles {

  import opened Seqs
  import opened Strings

  /** An entry of the article feed, with the fields the list logic reads. */
  datatype Article = Article(id: int, title: string, category: string, excerpt: string,
                             tags: seq<string>, views: int, likes: int)

  // ---- Search ---------------------------------------------------------

  /** The normalised query: the input lower-cased, then trimmed. */
  function Query(input: string): string
  {
    Trim(Lower(input))
  }

  /** An article matches a query when its title, its excerpt, one of its
      tags or its category contains the query, each compared lower-cased. */
  predicate Matches(a: Article, query: string)
  {
    || Contains(Lower(a.title), query)
    || Contains(Lower(a.excerpt), query)
    || (exists i :: 0 <= i < |a.tags| && Contains(Lower(a.tags[i]), query))
    || Contains(Lower(a.category), query)
  }

  function MatchesQuery(query: string): Article -> bool
  {
    (a: Article) => Matches(a, query)
  }

  /** The debounced body of `handleSearch`. An empty (or blank) query gives
      back every article; any other query gives the articles that match it,
      in feed order, each as often as it occurs in the feed. */
  function SearchResults(all: seq<Article>, input: string): (r: seq<Article>)
    ensures Query(input) == "" ==> r == all
    ensures Query(input) != "" ==>
              && IsSubseq(r, all)
              && (forall a :: a in r <==> a in all && Matches(a, Query(input)))
              && (forall a :: multiset(r)[a] == if Matches(a, Query(input)) then multiset(all)[a] else 0)
  {
    var q := Query(input);
    if q == "" then all
    else
      FilterIsSubseq(all, MatchesQuery(q));
      FilterMembership(all, MatchesQuery(q));
      FilterMultiplicity(all, MatchesQuery(q));
      Filter(all, MatchesQuery(q))
  }

  /** Input that is only white space counts as an empty search. */
  lemma BlankSearchShowsAll(all: seq<Article>, input: string)
    requires AllWhiteSpace(input)
    ensures SearchResults(all, input) == all
  {
    var l := Lower(input);
    assert AllWhiteSpace(l) by {
      forall i | 0 <= i < |l| ensures IsWhiteSpace(l[i]) {
        assert IsWhiteSpace(input[i]);
      }
    }
  }

  // ---- Category filter ------------------------------------------------

  function InCategory(category: string): Article -> bool
  {
    (a: Article) => a.category == category
  }

  /** `handleCategoryFilter`: `all` gives back every article; any other
      value gives exactly the articles of that category, in feed order. */
  function CategoryResults(all: seq<Article>, value: string): (r: seq<Article>)
    ensures value == "all" ==> r == all
    ensures value != "all" ==>
              && IsSubseq(r, all)
              && (forall a :: a in r <==> a in all && a.category == value)
              && (forall a :: multiset(r)[a] == if a.category == value then multiset(all)[a] else 0)
  {
    if value == "all" then all
    else
      FilterIsSubseq(all, InCategory(value));
      FilterMembership(all, InCategory(value));
      FilterMultiplicity(all, InCategory(value));
      Filter(all, InCategory(value))
  }

  // ---- Sorting --------------------------------------------------------

  /** The options of the sort selector. */
  datatype SortMode = ByDate | ByPopularity | ByReadTime | ByTitle

  /** The `switch` of `applySortAndDisplay`: an unknown value sorts by date,
      like `date` itself. */
  function SortModeOf(value: string): (m: SortMode)
    ensures m == ByPopularity <==> value == "popular"
    ensures m == ByReadTime <==> value == "readTime"
    ensures m == ByTitle <==> value == "title"
  {
    if value == "popular" then ByPopularity
    else if value == "readTime" then ByReadTime
    else if value == "title" then ByTitle
    else ByDate
  }

  /** Views plus likes. */
  function Popularity(a: Article): int
  {
    a.views + a.likes
  }

  /** The comparator `(b.views + b.likes) - (a.views + a.likes)` sorts
      ascending on the negated popularity. */
  function NegatedPopularity(a: Article): int
  {
    -Popularity(a)
  }

  /** The key a sort mode orders by, smaller first: negated popularity, or
      `rank` for the orders that are not computed here. */
  function SortKey(mode: SortMode, rank: Article -> int): Article -> int
  {
    if mode == ByPopularity then NegatedPopularity else rank
  }

  /** `r` is `s` in the order of `mode`: a permutation of `s`, sorted by the
      mode's key, with articles of equal key in their order in `s`. */
  ghost predicate SortedAs(r: seq<Article>, s: seq<Article>, mode: SortMode, rank: Article -> int)
  {
    && multiset(r) == multiset(s)
    && SortedBy(r, SortKey(mode, rank))
    && KeepsTies(r, s, SortKey(mode, rank))
  }

  /** The sort step of `applySortAndDisplay`. The popularity order is
      computed; the date, reading-time and title orders depend on date
      parsing and locale collation and are given by `rank` (smaller first).
      `Array.prototype.sort` is stable, so the result is the stable sort of
      the input: by popularity, non-increasing in views plus likes, equally
      popular articles in input order. */
  function SortArticles(s: seq<Article>, mode: SortMode, rank: Article -> int): (r: seq<Article>)
    ensures SortedAs(r, s, mode, rank)
    ensures mode == ByPopularity ==> forall i, j :: 0 <= i < j < |r| ==> Popularity(r[i]) >= Popularity(r[j])
  {
    var r := SortBy(s, SortKey(mode, rank));
    assert mode == ByPopularity ==> forall i, j :: 0 <= i < j < |r| ==> NegatedPopularity(r[i]) <= NegatedPopularity(r[j]);
    r
  }

  /** Equally popular articles are not reordered by the popularity sort. */
  lemma EqualPopularityKeepsFeedOrder(s: seq<Article>, rank: Article -> int)
    requires forall i :: 0 <= i < |s| ==> Popularity(s[i]) == Popularity(s[0])
    ensures SortArticles(s, ByPopularity, rank) == s
  {
    var r := SortArticles(s, ByPopularity, rank);
    if s != [] {
      var p := WithKey(NegatedPopularity, NegatedPopularity(s[0]));
      FilterKeepsAll(s, p);
      forall i | 0 <= i < |r| ensures p(r[i]) {
        assert r[i] in multiset(s);
      }
      FilterKeepsAll(r, p);
    }
  }

  // ---- Category colours -----------------------------------------------

  /** The categories of the category selector, in its order. */
  const CATEGORY_OPTIONS := ["تقنية", "صحة", "ثقافة", "نمط حياة", "بيئة", "طبخ", "رياضة", "مال"]

  /** The badge colour of each known category. */
  const CATEGORY_COLORS: map<string, string> := map[
    "تقنية" := "#667eea",
    "صحة" := "#48bb78",
    "ثقافة" := "#ed8936",
    "نمط حياة" := "#9f7aea",
    "بيئة" := "#38b2ac",
    "طبخ" := "#f56565",
    "رياضة" := "#4299e1",
    "مال" := "#38a169"
  ]

  const DEFAULT_COLOR := "#667eea"

  /** `getCategoryColor`: the colour of a known category, the default colour
      for anything else. Only the technology category shares its colour with
      the default. */
  function GetCategoryColor(category: string): (color: string)
    ensures category in CATEGORY_COLORS ==> color == CATEGORY_COLORS[category]
    ensures color == DEFAULT_COLOR <==> category !in CATEGORY_COLORS || category == "تقنية"
  {
    if category in CATEGORY_COLORS then CATEGORY_COLORS[category] else DEFAULT_COLOR
  }

  /** Every category the selector offers has a colour of its own, and no
      other category does. */
  lemma ColoursCoverSelector()
    ensures forall c :: c in CATEGORY_COLORS <==> c in CATEGORY_OPTIONS
  {
    forall c | c in CATEGORY_COLORS ensures c in CATEGORY_OPTIONS {
      var i := if c == "تقنية" then 0 else if c == "صحة" then 1 else if c == "ثقافة" then 2
               else if c == "نمط حياة" then 3 else if c == "بيئة" then 4 else if c == "طبخ" then 5
               else if c == "رياضة" then 6 else 7;
      assert CATEGORY_OPTIONS[i] == c;
    }
  }

}

=== FILE: http.dfy ===
/** The browser objects the service worker touches, reduced to the parts its
    decisions read: requests, responses, the outcome of a network fetch and
    the contents of one named cache. */
module Http {

  import opened Options

  /** A response: its status code and body text (headers are not read). */
  datatype Response = Response(status: int, body: string) {
    /** `response.ok`: the status is in the 200-299 range. */
    predicate Ok()
    {
      200 <= status <= 299
    }

    /** What the worker's `if (response.ok) cache.put(...)` leaves in the
        cache: the response is ok, and `Cache.put` does not reject it, as it
        does a partial (206) response. The `put` is not awaited, so a
        rejection only means that nothing is written. */
    predicate Cacheable()
    {
      Ok() && status != 206
    }
  }

  /** `request.mode`. */
  datatype Mode = Navigate | SameOrigin | NoCors | Cors

  /** What the worker reads from `new URL(request.url)`: the path and the
      names of the query parameters. */
  datatype Url = Url(pathname: string, paramNames: seq<string>)

  /** An intercepted request; `verb` is `request.method`. `parsed` is the platform URL parser's result
      for `url`; `None` stands for a URL the parser rejects. */
  datatype Request = Request(verb: string, url: string, mode: Mode, parsed: Option<Url>)

  /** How a `fetch` settles: it resolves with a response (ok or not) or it
      rejects because the network could not be reached. */
  datatype FetchOutcome = Responded(response: Response) | NetworkError

  /** One named cache: request URL to stored response. */
  type Cache = map<string, Response>

  /** The key a request is stored and matched under. */
  function Key(r: Request): string
  {
    r.url
  }

}

=== FILE: lifecycle.dfy ===
/** The service worker's life-cycle handlers (sw.js lines 59-85 and 383-415):
    activation evicts every cache generation but the current one, and two
    page messages trigger cleanup and early activation. */
module Lifecycle {

  import opened Http
  import Outbox

  /** The name of the current cache generation. */
  const CACHE_NAME := "muhtawaa-v1.0"

  /** All named caches of the origin: `caches.keys()` and their contents. */
  type CacheStorage = map<string, Cache>

  /** The activate handler: every cache whose name differs from
      `CACHE_NAME` is deleted. At most one generation survives, and the
      current one, if present, keeps its contents. */
  function Activate(storage: CacheStorage): (r: CacheStorage)
    ensures r.Keys == storage.Keys * {CACHE_NAME}
    ensures |r| <= 1
    ensures CACHE_NAME in storage ==> r[CACHE_NAME] == storage[CACHE_NAME]
  {
    var r := map name | name in storage && name == CACHE_NAME :: storage[name];
    assert r.Keys == if CACHE_NAME in storage then {CACHE_NAME} else {};
    r
  }

  /** Activating again deletes nothing more. */
  lemma ActivateIdempotent(storage: CacheStorage)
    ensures Activate(Activate(storage)) == Activate(storage)
  {
  }

  /** The data of a page message; `typ` is its `type` field, empty when the
      message carries no data or no such field. */
  datatype Message = Message(typ: string)

  /** What the two message listeners do with one message. */
  datatype MessageEffect = MessageEffect(outbox: seq<Outbox.OutboxItem>, skipWaiting: bool)

  /** `CLEANUP` runs the outbox cleanup at `now`; `SKIP_WAITING` asks the
      browser to activate the waiting worker; any other message changes
      nothing. */
  function OnMessage(msg: Message, outbox: seq<Outbox.OutboxItem>, now: int): (e: MessageEffect)
    ensures e.skipWaiting <==> msg.typ == "SKIP_WAITING"
    ensures msg.typ != "CLEANUP" ==> e.outbox == outbox
    ensures msg.typ == "CLEANUP" ==>
              forall it :: it in e.outbox <==> it in outbox && it.timestamp > now - 604800000
  {
    MessageEffect(if msg.typ == "CLEANUP" then Outbox.Cleanup(outbox, now) else outbox,
                  msg.typ == "SKIP_WAITING")
  }

}

=== FILE: options.dfy ===
/** The usual optional value, used for a cache lookup that can miss and a URL
    that the platform parser can reject. */
module Options {

  datatype Option<+T> = None | Some(value: T)

}

=== FILE: outbox.dfy ===
/** The offline outbox of the service worker (sw.js lines 213-292 and
    383-408): replaying queued actions when a sync fires, and discarding
    actions that have waited too long. The outbox is the `outbox` object
    store: items in ascending key order, keys unique. */
module Outbox {

  import opened Options
  import opened Seqs

  /** A queued action: its auto-incremented key, its type, its JSON payload
      and the time it was queued, in milliseconds. */
  datatype OutboxItem = OutboxItem(id: int, kind: string, data: string, timestamp: int)

  /** A POST the replay sends: the endpoint and the serialised payload. */
  datatype Post = Post(endpoint: string, body: string)

  /** The store's order: keys strictly ascending, hence unique. */
  predicate KeysAscending(items: seq<OutboxItem>)
  {
    forall i, j :: 0 <= i < j < |items| ==> items[i].id < items[j].id
  }

  /** An order-preserving selection from an outbox keeps its keys ascending. */
  lemma {:induction false} SubseqKeepsKeysAscending(a: seq<OutboxItem>, b: seq<OutboxItem>)
    requires IsSubseq(a, b) && KeysAscending(b)
    ensures KeysAscending(a)
    ensures forall i :: 0 <= i < |a| ==> a[i] in b
    decreases |b|
  {
    if a != [] && b != [] {
      assert KeysAscending(b[1..]);
      if a[0] == b[0] {
        SubseqKeepsKeysAscending(a[1..], b[1..]);
        forall j | 0 < j < |a| ensures a[0].id < a[j].id {
          assert a[j] == a[1..][j - 1];
          var k :| 0 <= k < |b[1..]| && b[1..][k] == a[j];
          assert b[k + 1] == a[j];
        }
      } else {
        SubseqKeepsKeysAscending(a, b[1..]);
      }
    }
  }

  // ---- Replay ---------------------------------------------------------

  /** The sync tags the worker answers, and the endpoint each replays to. */
  function SyncEndpoint(tag: string): (e: Option<string>)
    ensures e.Some? <==> tag == "contact-form" || tag == "article-interaction"
    ensures tag == "contact-form" ==> e == Some("/api/contact")
    ensures tag == "article-interaction" ==> e == Some("/api/articles/interaction")
  {
    if tag == "contact-form" then Some("/api/contact")
    else if tag == "article-interaction" then Some("/api/articles/interaction")
    else None
  }

  /** The items a replay for `tag` attempts. */
  function OfKind(tag: string): OutboxItem -> bool
  {
    (it: OutboxItem) => it.kind == tag
  }

  /** An item is delivered when it has the replayed type and its POST
      resolves; `resolved` holds the keys whose POST resolves (any status:
      the source does not look at `response.ok`). */
  predicate Delivered(it: OutboxItem, tag: string, resolved: set<int>)
  {
    it.kind == tag && it.id in resolved
  }

  function Undelivered(tag: string, resolved: set<int>): OutboxItem -> bool
  {
    (it: OutboxItem) => !Delivered(it, tag, resolved)
  }

  function KeyIsNot(key: int): OutboxItem -> bool
  {
    (it: OutboxItem) => it.id != key
  }

  /** `store.delete(key)`. */
  function DeleteKey(items: seq<OutboxItem>, key: int): seq<OutboxItem>
  {
    Filter(items, KeyIsNot(key))
  }

  function PostsOf(items: seq<OutboxItem>, endpoint: string): (posts: seq<Post>)
    ensures |posts| == |items|
    ensures forall i :: 0 <= i < |items| ==> posts[i] == Post(endpoint, items[i].data)
  {
    seq(|items|, i requires 0 <= i < |items| => Post(endpoint, items[i].data))
  }

  /** `syncContactForm` / `syncArticleInteractions`: walk a snapshot of the
      outbox; POST every item of type `tag` to `endpoint`; delete an item
      once its POST resolves; leave an item whose POST rejects in place.
      The remaining outbox is exactly the original one without the
      delivered items, in the same order; the POSTs sent are exactly the
      items of type `tag`, in key order. This is the walk with the store's
      items actually read; as written the read never yields them, see
      `ReplayAsWritten`. */
  method Replay(outbox: seq<OutboxItem>, tag: string, endpoint: string, resolved: set<int>)
    returns (remaining: seq<OutboxItem>, posts: seq<Post>)
    requires KeysAscending(outbox)
    ensures remaining == Filter(outbox, Undelivered(tag, resolved))
    ensures forall it :: it in remaining <==> it in outbox && !Delivered(it, tag, resolved)
    ensures KeysAscending(remaining)
    ensures posts == PostsOf(Filter(outbox, OfKind(tag)), endpoint)
  {
    var requests := outbox;  // `store.getAll()`
    remaining := outbox;
    posts := [];
    var i := 0;
    while i < |requests|
      invariant 0 <= i <= |requests|
      invariant remaining == LiveAfter(requests, i, tag, resolved)
      invariant posts == PostsOf(Filter(requests[..i], OfKind(tag)), endpoint)
    {
      remaining, posts := ReplayItem(requests, i, tag, endpoint, resolved, remaining, posts);
      i := i + 1;
    }
    assert requests[..i] == requests && requests[i..] == [];
    assert remaining == Filter(outbox, Undelivered(tag, resolved));
    FilterMembership(outbox, Undelivered(tag, resolved));
    FilterIsSubseq(outbox, Undelivered(tag, resolved));
    SubseqKeepsKeysAscending(remaining, outbox);
  }

  /** The loop body of the replay for the item at position `i` of the
      snapshot: an item of the replayed type is POSTed, and deleted from the
      live outbox when the POST resolves. */
  method ReplayItem(requests: seq<OutboxItem>, i: int, tag: string, endpoint: string, resolved: set<int>,
                    remaining: seq<OutboxItem>, posts: seq<Post>)
    returns (remaining': seq<OutboxItem>, posts': seq<Post>)
    requires KeysAscending(requests) && 0 <= i < |requests|
    requires remaining == LiveAfter(requests, i, tag, resolved)
    requires posts == PostsOf(Filter(requests[..i], OfKind(tag)), endpoint)
    ensures remaining' == LiveAfter(requests, i + 1, tag, resolved)
    ensures posts' == PostsOf(Filter(requests[..i + 1], OfKind(tag)), endpoint)
  {
    var request := requests[i];
    ReplayStepPosts(requests, i, tag, endpoint);
    ReplayStepRemaining(requests, i, tag, resolved);
    remaining', posts' := remaining, posts;
    if request.kind == tag {
      posts' := posts + [Post(endpoint, request.data)];
      if request.id in resolved {
        remaining' := DeleteKey(remaining, request.id);
      }
    }
  }

  /** One step of the replay on the POSTs sent. */
  lemma ReplayStepPosts(requests: seq<OutboxItem>, i: int, tag: string, endpoint: string)
    requires 0 <= i < |requests|
    ensures PostsOf(Filter(requests[..i + 1], OfKind(tag)), endpoint)
            == PostsOf(Filter(requests[..i], OfKind(tag)), endpoint)
               + (if requests[i].kind == tag then [Post(endpoint, requests[i].data)] else [])
  {
    assert requests[..i + 1] == requests[..i] + [requests[i]];
    FilterConcat(requests[..i], [requests[i]], OfKind(tag));
  }

  /** The live outbox after the replay has handled the first `i` items of
      its snapshot. */
  function LiveAfter(requests: seq<OutboxItem>, i: int, tag: string, resolved: set<int>): seq<OutboxItem>
    requires 0 <= i <= |requests|
  {
    Filter(requests[..i], Undelivered(tag, resolved)) + requests[i..]
  }

  /** One step of the replay on the live outbox. */
  lemma ReplayStepRemaining(requests: seq<OutboxItem>, i: int, tag: string, resolved: set<int>)
    requires KeysAscending(requests) && 0 <= i < |requests|
    ensures LiveAfter(requests, i + 1, tag, resolved)
            == if Delivered(requests[i], tag, resolved)
               then DeleteKey(LiveAfter(requests, i, tag, resolved), requests[i].id)
               else LiveAfter(requests, i, tag, resolved)
  {
    if Delivered(requests[i], tag, resolved) {
      FilterStep(requests, i, Undelivered(tag, resolved));
      DeleteDeliveredItem(requests, i, tag, resolved);
    } else {
      FilterStep(requests, i, Undelivered(tag, resolved));
      var done := Filter(requests[..i], Undelivered(tag, resolved));
      assert requests[i..] == [requests[i]] + requests[i + 1..];
      assert (done + [requests[i]]) + requests[i + 1..] == done + requests[i..];
    }
  }

  /** Filtering one more element of a prefix appends it when it passes. */
  lemma FilterStep(s: seq<OutboxItem>, i: int, p: OutboxItem -> bool)
    requires 0 <= i < |s|
    ensures Filter(s[..i + 1], p) == Filter(s[..i], p) + (if p(s[i]) then [s[i]] else [])
  {
    assert s[..i + 1] == s[..i] + [s[i]];
    FilterConcat(s[..i], [s[i]], p);
  }

  /** Deleting the key of item `i` from the live outbox removes exactly that
      item: the earlier survivors all have smaller keys, the later items
      larger ones. */
  lemma DeleteDeliveredItem(requests: seq<OutboxItem>, i: int, tag: string, resolved: set<int>)
    requires KeysAscending(requests) && 0 <= i < |requests|
    ensures var done := Filter(requests[..i], Undelivered(tag, resolved));
            DeleteKey(done + requests[i..], requests[i].id) == done + requests[i + 1..]
  {
    var key := requests[i].id;
    var notKey := KeyIsNot(key);
    var done := Filter(requests[..i], Undelivered(tag, resolved));
    FilterConcat(done, requests[i..], notKey);
    assert forall j :: 0 <= j < |done| ==> notKey(done[j]) by {
      FilterMembership(requests[..i], Undelivered(tag, resolved));
      forall j | 0 <= j < |done| ensures notKey(done[j]) {
        assert done[j] in done;
        assert done[j] in requests[..i];
      }
    }
    FilterKeepsAll(done, notKey);
    assert requests[i..] == [requests[i]] + requests[i + 1..];
    FilterConcat([requests[i]], requests[i + 1..], notKey);
    FilterKeepsAll(requests[i + 1..], notKey);
  }

  /** The sync listener: a known tag replays its items to its endpoint;
      any other tag leaves the outbox alone and sends nothing. */
  method OnSync(tag: string, outbox: seq<OutboxItem>, resolved: set<int>)
    returns (remaining: seq<OutboxItem>, posts: seq<Post>)
    requires KeysAscending(outbox)
    ensures SyncEndpoint(tag).None? ==> remaining == outbox && posts == []
    ensures SyncEndpoint(tag).Some? ==>
              && (forall it :: it in remaining <==> it in outbox && !Delivered(it, tag, resolved))
              && posts == PostsOf(Filter(outbox, OfKind(tag)), SyncEndpoint(tag).value)
    ensures tag == "contact-form" ==> posts == PostsOf(Filter(outbox, OfKind(tag)), "/api/contact")
    ensures tag == "article-interaction" ==>
              posts == PostsOf(Filter(outbox, OfKind(tag)), "/api/articles/interaction")
    ensures KeysAscending(remaining)
  {
    match SyncEndpoint(tag)
    case None =>
      remaining, posts := outbox, [];
    case Some(endpoint) =>
      remaining, posts := Replay(outbox, tag, endpoint, resolved);
  }

  /** Replaying a tag twice with the same delivery outcomes deletes nothing
      more the second time, and the second replay sends exactly the items of
      the tag whose POST did not resolve. */
  lemma ReplayTwice(outbox: seq<OutboxItem>, tag: string, resolved: set<int>)
    ensures var once := Filter(outbox, Undelivered(tag, resolved));
            && Filter(once, Undelivered(tag, resolved)) == once
            && forall it :: it in Filter(once, OfKind(tag)) <==> it in outbox && it.kind == tag && it.id !in resolved
  {
    var once := Filter(outbox, Undelivered(tag, resolved));
    FilterKeepsAll(once, Undelivered(tag, resolved));
    FilterMembership(outbox, Undelivered(tag, resolved));
    FilterMembership(once, OfKind(tag));
  }

  // ---- The store read as written --------------------------------------

  /** What a sync leaves behind: the outbox and the POSTs sent, in order. */
  datatype SyncOutcome = SyncOutcome(remaining: seq<OutboxItem>, posts: seq<Post>)

  /** A sync as written (sw.js:232 and sw.js:266): `store.getAll()` returns
      an `IDBRequest`, not a promise, so `await` yields the request object
      itself. The `for...of` over it throws a TypeError before the first
      item, and the outer `catch` swallows it. Whatever the outbox holds and
      whatever the network would answer, nothing is sent and nothing is
      deleted. `Replay` is the walk the code evidently intends. */
  function ReplayAsWritten(outbox: seq<OutboxItem>, tag: string, endpoint: string, resolved: set<int>)
    : (o: SyncOutcome)
    ensures o.remaining == outbox && o.posts == []
  {
    SyncOutcome(outbox, [])
  }

  /** Where the two differ: an item of the tag whose POST would resolve is
      posted and removed by `Replay`, but stays unsent in the outbox as
      written. */
  lemma ReplayAsWrittenKeepsDeliverable(
    outbox: seq<OutboxItem>, tag: string, endpoint: string, resolved: set<int>, j: int)
    requires 0 <= j < |outbox| && Delivered(outbox[j], tag, resolved)
    ensures var w := ReplayAsWritten(outbox, tag, endpoint, resolved);
            && outbox[j] in w.remaining
            && Post(endpoint, outbox[j].data) !in w.posts
    ensures outbox[j] !in Filter(outbox, Undelivered(tag, resolved))
    ensures Post(endpoint, outbox[j].data) in PostsOf(Filter(outbox, OfKind(tag)), endpoint)
  {
    FilterMembership(outbox, Undelivered(tag, resolved));
    FilterMembership(outbox, OfKind(tag));
    var tagged := Filter(outbox, OfKind(tag));
    assert outbox[j] in tagged;
    var k :| 0 <= k < |tagged| && tagged[k] == outbox[j];
    assert PostsOf(tagged, endpoint)[k] == Post(endpoint, outbox[j].data);
  }

  // ---- Cleanup --------------------------------------------------------

  /** Seven days in milliseconds. */
  const SEVEN_DAYS_MS := 7 * 24 * 60 * 60 * 1000

  /** Still kept at `now`: queued after the cut-off, which is itself old. */
  function NewerThan(cutoff: int): OutboxItem -> bool
  {
    (it: OutboxItem) => it.timestamp > cutoff
  }

  /** `cleanupOldData`: every item whose timestamp is at or before
      `now - 7 days` (the key range's upper bound is inclusive) is deleted;
      every later one is kept, in order. This is the deletion with the old
      keys actually read; as written the read never yields them, see
      `CleanupAsWritten`. */
  function Cleanup(outbox: seq<OutboxItem>, now: int): (r: seq<OutboxItem>)
    ensures forall it :: it in r <==> it in outbox && it.timestamp > now - 604800000
    ensures IsSubseq(r, outbox)
    ensures KeysAscending(outbox) ==> KeysAscending(r)
  {
    var r := Filter(outbox, NewerThan(now - SEVEN_DAYS_MS));
    FilterIsSubseq(outbox, NewerThan(now - SEVEN_DAYS_MS));
    FilterMembership(outbox, NewerThan(now - SEVEN_DAYS_MS));
    if KeysAscending(outbox) then SubseqKeepsKeysAscending(r, outbox); r else r
  }

  /** A cleanup as written (sw.js:398): `getAllKeys` on the timestamp index
      returns an `IDBRequest`, so `await` yields the request object, the
      `for...of` throws a TypeError, and the outer `catch` swallows it. The
      outbox is left as it was. `Cleanup` is the deletion the code evidently
      intends. */
  function CleanupAsWritten(outbox: seq<OutboxItem>, now: int): (r: seq<OutboxItem>)
    ensures r == outbox
  {
    outbox
  }

  /** Where the two differ: an item queued seven days or more before `now`
      is removed by `Cleanup` but survives the cleanup as written. */
  lemma CleanupAsWrittenKeepsStale(outbox: seq<OutboxItem>, now: int, j: int)
    requires 0 <= j < |outbox| && outbox[j].timestamp <= now - SEVEN_DAYS_MS
    ensures outbox[j] in CleanupAsWritten(outbox, now)
    ensures outbox[j] !in Cleanup(outbox, now)
  {
  }

}

=== FILE: router.dfy ===
/** The fetch path of the service worker (sw.js lines 87-137 and 207-211):
    which requests are intercepted, how an intercepted URL picks a strategy,
    and the fallback when the strategy fails. */
module Router {

  import opened Options
  import opened Strings
  import opened Http
  import Strategies

  /** The path the offline page is cached under, relative to the origin. */
  const OFFLINE_URL := "/offline.html"

  /** The static-asset extensions, in the order the source tests them. */
  const STATIC_EXTENSIONS := [".css", ".js", ".png", ".jpg", ".jpeg", ".gif", ".svg",
                              ".ico", ".woff", ".woff2", ".ttf", ".eot"]

  /** The same extensions without their leading dot, index for index. */
  const STATIC_EXTENSION_NAMES := ["css", "js", "png", "jpg", "jpeg", "gif", "svg",
                                   "ico", "woff", "woff2", "ttf", "eot"]

  /** A path names a static asset when it ends with one of the extensions. */
  predicate IsStaticAsset(pathname: string)
  {
    exists i :: 0 <= i < |STATIC_EXTENSIONS| && EndsWith(pathname, STATIC_EXTENSIONS[i])
  }

  /** `isStaticAsset`: `staticExtensions.some(ext => pathname.endsWith(ext))`,
      trying the extensions in order and stopping at the first match. */
  method HasStaticExtension(pathname: string) returns (found: bool)
    ensures found <==> IsStaticAsset(pathname)
  {
    var i := 0;
    while i < |STATIC_EXTENSIONS|
      invariant 0 <= i <= |STATIC_EXTENSIONS|
      invariant forall j :: 0 <= j < i ==> !EndsWith(pathname, STATIC_EXTENSIONS[j])
    {
      if EndsWith(pathname, STATIC_EXTENSIONS[i]) {
        return true;
      }
      i := i + 1;
    }
    return false;
  }

  /** Each extension is a dot followed by the dot-free name at the same
      index. */
  lemma ExtensionTable(i: int)
    requires 0 <= i < |STATIC_EXTENSIONS|
    ensures |STATIC_EXTENSION_NAMES| == |STATIC_EXTENSIONS|
    ensures STATIC_EXTENSIONS[i] == "." + STATIC_EXTENSION_NAMES[i]
    ensures '.' !in STATIC_EXTENSION_NAMES[i]
  {
  }

  /** A path is a static asset exactly when the text after its last dot is
      one of the twelve extension names. */
  lemma StaticAssetByExtension(pathname: string)
    ensures IsStaticAsset(pathname) <==>
              Extension(pathname).Some? && Extension(pathname).value in STATIC_EXTENSION_NAMES
  {
    if IsStaticAsset(pathname) {
      var i :| 0 <= i < |STATIC_EXTENSIONS| && EndsWith(pathname, STATIC_EXTENSIONS[i]);
      ExtensionTable(i);
      ExtensionOfSuffix(pathname, STATIC_EXTENSION_NAMES[i]);
    }
    if Extension(pathname).Some? && Extension(pathname).value in STATIC_EXTENSION_NAMES {
      var i :| 0 <= i < |STATIC_EXTENSION_NAMES| && STATIC_EXTENSION_NAMES[i] == Extension(pathname).value;
      ExtensionTable(i);
      assert EndsWith(pathname, STATIC_EXTENSIONS[i]);
    }
  }

  /** The strategy an intercepted request is routed to. */
  datatype Strategy = NetworkFirst | CacheFirst | StaleWhileRevalidate

  /** Dynamic content: an API path or a `timestamp` query parameter. */
  predicate IsDynamic(u: Url)
  {
    Contains(u.pathname, "/api/") || "timestamp" in u.paramNames
  }

  /** An article page or the site root. */
  predicate IsPage(u: Url)
  {
    Contains(u.pathname, "/articles/") || u.pathname == "/"
  }

  /** The classification of `handleFetch`, its branches taken in their fixed order. */
  function Route(u: Url): (s: Strategy)
    ensures s == CacheFirst <==> !IsDynamic(u) && IsStaticAsset(u.pathname)
    ensures s == StaleWhileRevalidate <==> !IsDynamic(u) && !IsStaticAsset(u.pathname) && IsPage(u)
    ensures s == NetworkFirst <==> IsDynamic(u) || (!IsStaticAsset(u.pathname) && !IsPage(u))
  {
    if IsDynamic(u) then NetworkFirst
    else if IsStaticAsset(u.pathname) then CacheFirst
    else if IsPage(u) then StaleWhileRevalidate
    else NetworkFirst
  }

  /** An API script is dynamic content first: it goes to the network even
      though its extension names a static asset. */
  lemma ApiScriptGoesToNetwork()
    ensures IsStaticAsset("/api/widget.js")
    ensures Route(Url("/api/widget.js", [])) == NetworkFirst
    ensures Route(Url("/widget.js", [])) == CacheFirst
  {
    assert EndsWith("/api/widget.js", STATIC_EXTENSIONS[1]);
    assert StartsWith("/api/widget.js"[0..], "/api/");
    assert EndsWith("/widget.js", STATIC_EXTENSIONS[1]);
    NotContainsApi("/widget.js", 'p');
  }

  /** The fetch listener's gate: only GET requests that are not for a
      `chrome-extension://` URL are answered by the worker. */
  predicate Intercepts(r: Request)
  {
    r.verb == "GET" && !StartsWith(r.url, "chrome-extension://")
  }

  /** The response `handleFetch`'s `catch` builds: the cached offline page or
      the text `Offline` for a navigation, a 503 for anything else. */
  function Fallback(r: Request, cache: Cache, origin: string): (resp: Response)
    ensures r.mode == Navigate && origin + OFFLINE_URL in cache ==> resp == cache[origin + OFFLINE_URL]
    ensures r.mode == Navigate && origin + OFFLINE_URL !in cache ==> resp == Response(200, "Offline")
    ensures r.mode != Navigate ==> resp.status == 503
  {
    if r.mode == Navigate then
      if origin + OFFLINE_URL in cache then cache[origin + OFFLINE_URL] else Response(200, "Offline")
    else Response(503, "Network error")
  }

  /** Runs the strategy `Route` picks. `swr` is the stale-while-revalidate
      variant in use. */
  function RunStrategy(u: Url, cache: Cache, key: string, net: FetchOutcome,
                       swr: (Cache, string, FetchOutcome) -> Strategies.Step): Strategies.Step
  {
    match Route(u)
    case NetworkFirst => Strategies.NetworkFirst(cache, key, net)
    case CacheFirst => Strategies.CacheFirst(cache, key, net)
    case StaleWhileRevalidate => swr(cache, key, net)
  }

  /** `handleFetch` around a given stale-while-revalidate variant: a URL the
      parser rejects fails before the `try`; a strategy that fails is
      replaced by the fallback; anything else the strategy gives is passed
      on unchanged. */
  function HandleWith(r: Request, cache: Cache, net: FetchOutcome, origin: string,
                      swr: (Cache, string, FetchOutcome) -> Strategies.Step): Strategies.Step
  {
    match r.parsed
    case None => Strategies.Step(Strategies.Rejected, cache)
    case Some(u) =>
      var s := RunStrategy(u, cache, Key(r), net, swr);
      if s.result.Rejected? then Strategies.Step(Strategies.Resolved(Fallback(r, s.cache, origin)), s.cache)
      else s
  }

  /** What the page gets for one request. */
  datatype Answer =
    | NotIntercepted           // the listener returns without `respondWith`
    | Respond(response: Response)
    | PageNetworkError         // `respondWith` got a rejection or no response

  datatype Outcome = Outcome(answer: Answer, cache: Cache)

  /** The fetch listener around a given `handleFetch`. */
  function OnFetchWith(r: Request, cache: Cache, net: FetchOutcome, origin: string,
                       swr: (Cache, string, FetchOutcome) -> Strategies.Step): Outcome
  {
    if !Intercepts(r) then Outcome(NotIntercepted, cache)
    else
      var s := HandleWith(r, cache, net, origin, swr);
      match s.result
      case Resolved(resp) => Outcome(Respond(resp), s.cache)
      case _ => Outcome(PageNetworkError, s.cache)
  }

  /** The fetch listener as the source writes it. It answers the same
      requests as `OnFetch`, and differs from it only where a
      stale-while-revalidate miss meets a failed fetch: the page then gets a
      network error instead of the fallback. */
  function OnFetchAsWritten(r: Request, cache: Cache, net: FetchOutcome, origin: string): (o: Outcome)
    ensures o.answer.NotIntercepted? <==> !Intercepts(r)
    ensures Intercepts(r) && r.parsed.Some? && Route(r.parsed.value) == StaleWhileRevalidate ==>
              Key(r) !in cache && net.NetworkError? ==>
              o == Outcome(PageNetworkError, cache)
    ensures !(Intercepts(r) && r.parsed.Some? && Route(r.parsed.value) == StaleWhileRevalidate
              && Key(r) !in cache && net.NetworkError?) ==>
              o == OnFetch(r, cache, net, origin)
  {
    OnFetchWith(r, cache, net, origin, Strategies.StaleWhileRevalidateAsWritten)
  }

  /** The fetch listener with stale-while-revalidate passing a failed miss
      on to the fallback. Requests that are not GET, and `chrome-extension://`
      URLs, are left alone; every other request with a parsable URL is
      answered: with the network's response where the route consults the
      network first or nothing is cached, with the cached entry where the
      route serves the cache first or the network is unreachable, and with
      the fallback when neither is there. The cache changes only by the
      write of a cacheable network response under the request's own key,
      and a cache-first hit, which never consults the network, leaves it
      alone. */
  function OnFetch(r: Request, cache: Cache, net: FetchOutcome, origin: string): (o: Outcome)
    ensures o.answer.NotIntercepted? <==> !Intercepts(r)
    ensures !Intercepts(r) ==> o.cache == cache
    ensures Intercepts(r) && r.parsed.Some? ==> o.answer.Respond?
    ensures Intercepts(r) && r.parsed.None? ==> o.answer.PageNetworkError? && o.cache == cache
    ensures o.cache == cache || (net.Responded? && net.response.Cacheable() && o.cache == cache[Key(r) := net.response])
    ensures Intercepts(r) && r.parsed.Some? && net.Responded? ==>
              (Route(r.parsed.value) == NetworkFirst || Key(r) !in cache) ==>
              o.answer == Respond(net.response)
    ensures Intercepts(r) && r.parsed.Some? && Key(r) in cache ==>
              (Route(r.parsed.value) != NetworkFirst || net.NetworkError?) ==>
              o.answer == Respond(cache[Key(r)])
    ensures Intercepts(r) && r.parsed.Some? && Key(r) !in cache && net.NetworkError? ==>
              o.answer == Respond(Fallback(r, cache, origin))
    ensures Intercepts(r) && r.parsed.Some? && net.Responded? && net.response.Cacheable() ==>
              !(Route(r.parsed.value) == CacheFirst && Key(r) in cache) ==>
              o.cache == cache[Key(r) := net.response]
    ensures Intercepts(r) && r.parsed.Some? && Route(r.parsed.value) == CacheFirst && Key(r) in cache ==>
              o.cache == cache
  {
    OnFetchWith(r, cache, net, origin, Strategies.StaleWhileRevalidate)
  }

  /** With the network unreachable and nothing cached for the request, a
      navigation is answered with the cached offline page, or the text
      `Offline` when that page is missing too, and any other request with a
      503, whichever strategy the URL selects. */
  lemma OfflineFallback(r: Request, cache: Cache, origin: string)
    requires Intercepts(r) && r.parsed.Some? && Key(r) !in cache
    ensures var o := OnFetch(r, cache, NetworkError, origin);
            && o.cache == cache
            && (r.mode == Navigate && origin + OFFLINE_URL in cache ==> o.answer == Respond(cache[origin + OFFLINE_URL]))
            && (r.mode == Navigate && origin + OFFLINE_URL !in cache ==> o.answer == Respond(Response(200, "Offline")))
            && (r.mode != Navigate ==> o.answer.Respond? && o.answer.response.status == 503)
  {
  }

  /** The source's stale-while-revalidate breaks that guarantee: a
      navigation routed to it, offline and uncached, reaches the page as a
      network error even when the offline page is cached; the corrected
      variant serves the offline page. */
  lemma OfflinePageNavigationAsWritten(r: Request, cache: Cache, origin: string)
    requires Intercepts(r) && r.parsed.Some? && Route(r.parsed.value) == StaleWhileRevalidate
    requires r.mode == Navigate && Key(r) !in cache && origin + OFFLINE_URL in cache
    ensures OnFetchAsWritten(r, cache, NetworkError, origin).answer == PageNetworkError
    ensures OnFetch(r, cache, NetworkError, origin).answer == Respond(cache[origin + OFFLINE_URL])
  {
    assert HandleWith(r, cache, NetworkError, origin, Strategies.StaleWhileRevalidateAsWritten).result
           == Strategies.Undefined;
  }

  /** A concrete instance: an uncached article page requested offline,
      with the offline page in the cache. */
  lemma OfflineArticleNavigationAsWritten()
    ensures var origin := "https://example.org";
            var r := Request("GET", origin + "/articles/new.html", Navigate, Some(Url("/articles/new.html", [])));
            var offline := Response(200, "offline page");
            var cache := map[origin + OFFLINE_URL := offline];
            && OnFetchAsWritten(r, cache, NetworkError, origin).answer == PageNetworkError
            && OnFetch(r, cache, NetworkError, origin).answer == Respond(offline)
  {
    var origin := "https://example.org";
    var r := Request("GET", origin + "/articles/new.html", Navigate, Some(Url("/articles/new.html", [])));
    var cache := map[origin + OFFLINE_URL := Response(200, "offline page")];
    ArticlePageRoute();
    ExampleIntercepted(r);
    ExampleArticleUncached(origin);
    OfflinePageNavigationAsWritten(r, cache, origin);
  }

  lemma ExampleIntercepted(r: Request)
    requires r.verb == "GET" && |r.url| > 0 && r.url[0] == 'h'
    ensures Intercepts(r)
  {
  }

  lemma ExampleArticleUncached(origin: string)
    requires origin == "https://example.org"
    ensures origin + "/articles/new.html" != origin + OFFLINE_URL
  {
    assert (origin + "/articles/new.html")[|origin| + 1] == 'a';
  }

  /** An article page is routed to stale-while-revalidate. */
  lemma ArticlePageRoute()
    ensures Route(Url("/articles/new.html", [])) == StaleWhileRevalidate
  {
    ArticlePathIsPage();
    ArticlePathNotApi();
    ArticlePathNotStatic();
  }

  lemma ArticlePathNotApi()
    ensures !IsDynamic(Url("/articles/new.html", []))
  {
    NotContainsApi("/articles/new.html", 'p');
  }

  lemma ArticlePathNotStatic()
    ensures !IsStaticAsset("/articles/new.html")
  {
    HtmlIsNotStatic("/articles/new.html");
  }

  lemma ArticlePathIsPage()
    ensures IsPage(Url("/articles/new.html", []))
  {
    assert StartsWith("/articles/new.html"[0..], "/articles/");
  }

  /** A path lacking some character of `/api/` is not an API path. */
  lemma NotContainsApi(p: string, c: char)
    requires c in "/api/" && c !in p
    ensures !Contains(p, "/api/")
  {
    if Contains(p, "/api/") {
      ContainsChars(p, "/api/", c);
    }
  }

  /** An `.html` page is not a static asset. */
  lemma HtmlIsNotStatic(p: string)
    requires EndsWith(p, ".html")
    ensures !IsStaticAsset(p)
  {
    ExtensionOfSuffix(p, "html");
    StaticAssetByExtension(p);
  }

}

=== FILE: seqs.dfy ===
/** Sequence vocabulary shared by the article list and the offline outbox:
    order-preserving filtering, subsequences, prefixes, clamped slicing and a
    stable sort by an integer key. */
module Seqs {

  /** `a` can be obtained from `b` by deleting elements, keeping the order. */
  ghost predicate IsSubseq<T>(a: seq<T>, b: seq<T>)
    decreases |b|
  {
    if a == [] then true
    else if b == [] then false
    else if a[0] == b[0] then IsSubseq(a[1..], b[1..])
    else IsSubseq(a, b[1..])
  }

  predicate IsPrefix<T(==)>(a: seq<T>, b: seq<T>)
  {
    |a| <= |b| && b[..|a|] == a
  }

  /** The elements of `s` that satisfy `p`, in their original order
      (JavaScript's `Array.prototype.filter`). */
  function Filter<T(!new)>(s: seq<T>, p: T -> bool): (r: seq<T>)
    ensures |r| <= |s|
    ensures forall i :: 0 <= i < |r| ==> p(r[i])
  {
    if s == [] then []
    else if p(s[0]) then [s[0]] + Filter(s[1..], p)
    else Filter(s[1..], p)
  }

  /** The filter keeps exactly the elements that satisfy `p`. */
  lemma {:induction false} FilterMembership<T(!new)>(s: seq<T>, p: T -> bool)
    ensures forall x :: x in Filter(s, p) <==> x in s && p(x)
    decreases |s|
  {
    if s != [] {
      FilterMembership(s[1..], p);
      assert s == [s[0]] + s[1..];
    }
  }

  /** The filter keeps the order of what it keeps. */
  lemma {:induction false} FilterIsSubseq<T(!new)>(s: seq<T>, p: T -> bool)
    ensures IsSubseq(Filter(s, p), s)
    decreases |s|
  {
    if s != [] {
      FilterIsSubseq(s[1..], p);
      if p(s[0]) {
        assert ([s[0]] + Filter(s[1..], p))[1..] == Filter(s[1..], p);
      }
    }
  }

  /** The filter keeps every copy of what it keeps. */
  lemma {:induction false} FilterMultiplicity<T(!new)>(s: seq<T>, p: T -> bool)
    ensures forall x :: multiset(Filter(s, p))[x] == if p(x) then multiset(s)[x] else 0
    decreases |s|
  {
    if s != [] {
      FilterMultiplicity(s[1..], p);
      assert s == [s[0]] + s[1..];
    }
  }

  lemma {:induction false} FilterConcat<T(!new)>(a: seq<T>, b: seq<T>, p: T -> bool)
    ensures Filter(a + b, p) == Filter(a, p) + Filter(b, p)
    decreases |a|
  {
    if a == [] {
      assert a + b == b;
    } else {
      assert (a + b)[1..] == a[1..] + b;
      FilterConcat(a[1..], b, p);
    }
  }

  /** A filter that keeps every element changes nothing. */
  lemma {:induction false} FilterKeepsAll<T(!new)>(s: seq<T>, p: T -> bool)
    requires forall i :: 0 <= i < |s| ==> p(s[i])
    ensures Filter(s, p) == s
    decreases |s|
  {
    if s != [] {
      FilterKeepsAll(s[1..], p);
    }
  }

  /** JavaScript's `slice(from, to)` for non-negative bounds: both ends are
      clamped to the length, and an empty range yields an empty sequence. */
  function Slice<T>(s: seq<T>, from: nat, to: nat): (r: seq<T>)
    ensures |r| == if from < to && from < |s| then Min(to, |s|) - from else 0
    ensures forall i :: 0 <= i < |r| ==> r[i] == s[from + i]
  {
    var hi := Min(to, |s|);
    if from < hi then s[from..hi] else []
  }

  function Min(a: int, b: int): int
  {
    if a <= b then a else b
  }

  /** Every element's key is at most the key of every later element. */
  ghost predicate SortedBy<T>(s: seq<T>, key: T -> int)
  {
    forall i, j :: 0 <= i < j < |s| ==> key(s[i]) <= key(s[j])
  }

  /** The elements whose key is `k`. */
  function WithKey<T>(key: T -> int, k: int): T -> bool
  {
    (x: T) => key(x) == k
  }

  /** Elements with equal keys are in the same relative order in `r` as in
      `s`. */
  ghost predicate KeepsTies<T(!new)>(r: seq<T>, s: seq<T>, key: T -> int)
  {
    forall k :: Filter(r, WithKey(key, k)) == Filter(s, WithKey(key, k))
  }

  /** Insertion of `x` in front of the first element whose key is at least
      its own. */
  function Insert<T>(x: T, s: seq<T>, key: T -> int): (r: seq<T>)
    requires SortedBy(s, key)
    ensures SortedBy(r, key)
    ensures multiset(r) == multiset(s) + multiset{x}
    ensures forall i :: 0 <= i < |r| ==> r[i] == x || r[i] in s
  {
    if s == [] then [x]
    else if key(x) <= key(s[0]) then [x] + s
    else
      var rest := Insert(x, s[1..], key);
      assert s == [s[0]] + s[1..];
      assert forall i :: 0 <= i < |rest| ==> key(s[0]) <= key(rest[i]);
      ConsSorted(s[0], rest, key);
      [s[0]] + rest
  }

  /** An element no greater than any element of a sorted sequence may be put in
      front of it. */
  lemma ConsSorted<T>(a: T, s: seq<T>, key: T -> int)
    requires SortedBy(s, key)
    requires forall i :: 0 <= i < |s| ==> key(a) <= key(s[i])
    ensures SortedBy([a] + s, key)
  {
    assert forall i :: 1 <= i <= |s| ==> ([a] + s)[i] == s[i - 1];
  }

  /** Inserting `x` puts it before every element of equal key: the
      elements of each key are as in `[x] + s`. */
  lemma {:induction false} InsertKeepsTies<T(!new)>(x: T, s: seq<T>, key: T -> int, k: int)
    requires SortedBy(s, key)
    ensures Filter(Insert(x, s, key), WithKey(key, k)) == Filter([x] + s, WithKey(key, k))
    decreases |s|
  {
    var p := WithKey(key, k);
    if s != [] && key(x) > key(s[0]) {
      var rest := Insert(x, s[1..], key);
      InsertKeepsTies(x, s[1..], key, k);
      assert s == [s[0]] + s[1..];
      FilterConcat([s[0]], rest, p);
      FilterConcat([x], s[1..], p);
      FilterConcat([s[0]], s[1..], p);
      FilterConcat([x], s, p);
      assert !(p(x) && p(s[0]));
    }
  }

  /** A stable sort in non-decreasing key order, like JavaScript's `sort`
      with a comparator that subtracts keys (stable since ECMAScript 2019):
      the result is a sorted permutation in which elements of equal key keep
      their input order. */
  function SortBy<T(!new)>(s: seq<T>, key: T -> int): (r: seq<T>)
    ensures SortedBy(r, key)
    ensures multiset(r) == multiset(s)
    ensures |r| == |s|
    ensures KeepsTies(r, s, key)
  {
    if s == [] then []
    else
      assert s == [s[0]] + s[1..];
      var sorted := SortBy(s[1..], key);
      var r := Insert(s[0], sorted, key);
      assert |r| == |multiset(r)| == |multiset(s)| == |s|;
      SortByStep(s, sorted, r, key);
      r
  }

  /** The inductive step of `SortBy`'s stability. */
  lemma SortByStep<T(!new)>(s: seq<T>, sorted: seq<T>, r: seq<T>, key: T -> int)
    requires s != [] && SortedBy(sorted, key) && KeepsTies(sorted, s[1..], key)
    requires r == Insert(s[0], sorted, key)
    ensures KeepsTies(r, s, key)
  {
    forall k ensures Filter(r, WithKey(key, k)) == Filter(s, WithKey(key, k)) {
      InsertKeepsTies(s[0], sorted, key, k);
      FilterConcat([s[0]], sorted, WithKey(key, k));
      FilterConcat([s[0]], s[1..], WithKey(key, k));
      assert s == [s[0]] + s[1..];
    }
  }

}

=== FILE: strategies.dfy ===
/** The three retrieval strategies of the service worker (sw.js lines
    139-205), each a function of the current cache, the request's cache key
    and how the network fetch settles. */
module Strategies {

  import opened Http

  /** How a strategy's promise settles. `Undefined` is a promise that
      resolves with no response at all. */
  datatype Settled = Resolved(response: Response) | Rejected | Undefined

  /** A strategy's result together with the cache it leaves behind. */
  datatype Step = Step(result: Settled, cache: Cache)

  /** The write discipline of every strategy that consulted the network: an
      ok response that `Cache.put` accepts becomes the entry for `key`; any
      other response and a failed fetch leave the cache as it was; no other
      key is touched. */
  ghost predicate WritesOnlyOk(before: Cache, key: string, net: FetchOutcome, after: Cache)
  {
    && (forall k :: k != key ==> (k in after <==> k in before))
    && (forall k :: k != key && k in after ==> after[k] == before[k])
    && (net.Responded? && net.response.Cacheable() ==> key in after && after[key] == net.response)
    && (!(net.Responded? && net.response.Cacheable()) ==> after == before)
  }

  /** A resolved response is never made up: it is the network's response or
      the entry the cache already held for `key`. */
  ghost predicate NotFabricated(before: Cache, key: string, net: FetchOutcome, result: Settled)
  {
    result.Resolved? ==>
      (net.Responded? && result.response == net.response)
      || (key in before && result.response == before[key])
  }

  /** `cache.put` when the response is ok, as far as the put succeeds. */
  function StoreIfOk(cache: Cache, key: string, resp: Response): Cache
  {
    if resp.Cacheable() then cache[key := resp] else cache
  }

  /** Network first: the network's response whatever its status; on a failed
      fetch, the cached entry if there is one, otherwise the failure. */
  function NetworkFirst(cache: Cache, key: string, net: FetchOutcome): (s: Step)
    ensures WritesOnlyOk(cache, key, net, s.cache)
    ensures NotFabricated(cache, key, net, s.result)
    ensures net.Responded? ==> s.result == Resolved(net.response)
    ensures net.NetworkError? ==> (s.result.Resolved? <==> key in cache)
    ensures !s.result.Undefined?
  {
    match net
    case Responded(resp) => Step(Resolved(resp), StoreIfOk(cache, key, resp))
    case NetworkError => Step(if key in cache then Resolved(cache[key]) else Rejected, cache)
  }

  /** Cache first: a hit is served without consulting the network; a miss is
      served from the network, and a failed fetch is passed on. */
  function CacheFirst(cache: Cache, key: string, net: FetchOutcome): (s: Step)
    ensures key in cache ==> s.result == Resolved(cache[key]) && s.cache == cache
    ensures key !in cache ==> WritesOnlyOk(cache, key, net, s.cache)
    ensures NotFabricated(cache, key, net, s.result)
    ensures key !in cache && net.Responded? ==> s.result == Resolved(net.response)
    ensures s.result.Rejected? <==> key !in cache && net.NetworkError?
    ensures !s.result.Undefined?
  {
    if key in cache then Step(Resolved(cache[key]), cache)
    else match net
      case Responded(resp) => Step(Resolved(resp), StoreIfOk(cache, key, resp))
      case NetworkError => Step(Rejected, cache)
  }

  /** Stale-while-revalidate as the source writes it. The background fetch is
      taken to settle before the next request, so the returned cache already
      holds its write. A miss whose fetch fails resolves with no response,
      because the fetch's `catch` handler returns nothing. */
  function StaleWhileRevalidateAsWritten(cache: Cache, key: string, net: FetchOutcome): (s: Step)
    ensures WritesOnlyOk(cache, key, net, s.cache)
    ensures NotFabricated(cache, key, net, s.result)
    ensures key in cache ==> s.result == Resolved(cache[key])
    ensures key !in cache && net.Responded? ==> s.result == Resolved(net.response)
    ensures s.result.Undefined? <==> key !in cache && net.NetworkError?
  {
    var after := if net.Responded? then StoreIfOk(cache, key, net.response) else cache;
    if key in cache then Step(Resolved(cache[key]), after)
    else if net.Responded? then Step(Resolved(net.response), after)
    else Step(Undefined, after)
  }

  /** Stale-while-revalidate with a failed fetch on a miss passed on as a
      failure, so that the caller's offline fallback applies. It differs from
      the source only in that one case. */
  function StaleWhileRevalidate(cache: Cache, key: string, net: FetchOutcome): (s: Step)
    ensures WritesOnlyOk(cache, key, net, s.cache)
    ensures NotFabricated(cache, key, net, s.result)
    ensures key in cache ==> s.result == Resolved(cache[key])
    ensures key !in cache && net.Responded? ==> s.result == Resolved(net.response)
    ensures s.result.Rejected? <==> key !in cache && net.NetworkError?
    ensures !s.result.Undefined?
  {
    var w := StaleWhileRevalidateAsWritten(cache, key, net);
    if w.result.Undefined? then Step(Rejected, w.cache) else w
  }

  /** Once a cache-first miss has stored a cacheable response, every later
      cache-first request for that key is served that response, without the
      network and without changing the cache. */
  lemma CacheFirstKeepsServingStored(cache: Cache, key: string, first: Response, later: FetchOutcome)
    requires key !in cache && first.Cacheable()
    ensures var s1 := CacheFirst(cache, key, Responded(first));
            var s2 := CacheFirst(s1.cache, key, later);
            s1.result == Resolved(first) && s2.result == Resolved(first) && s2.cache == s1.cache
  {
  }

  /** After a network-first request got a cacheable response, the same request made
      offline is answered with that response. */
  lemma NetworkFirstOfflineServesLastOk(cache: Cache, key: string, latest: Response)
    requires latest.Cacheable()
    ensures var s1 := NetworkFirst(cache, key, Responded(latest));
            NetworkFirst(s1.cache, key, NetworkError).result == Resolved(latest)
  {
  }

  /** Stale-while-revalidate serves the stale entry once, and the cacheable response
      its fetch obtained on the next request, even when that one is offline. */
  lemma RevalidatedEntryServedNext(cache: Cache, key: string, latest: Response)
    requires key in cache && latest.Cacheable()
    ensures var s1 := StaleWhileRevalidate(cache, key, Responded(latest));
            && s1.result == Resolved(cache[key])
            && StaleWhileRevalidate(s1.cache, key, NetworkError).result == Resolved(latest)
  {
  }

  /** A partial (206) response is ok but never stored: the page gets it, and
      the next cache-first request for that key, made offline, finds no
      entry and fails. */
  lemma PartialResponseNotCached(cache: Cache, key: string, part: Response)
    requires key !in cache && part.status == 206
    ensures var s1 := CacheFirst(cache, key, Responded(part));
            && part.Ok()
            && s1.result == Resolved(part)
            && s1.cache == cache
            && CacheFirst(s1.cache, key, NetworkError).result == Rejected
  {
  }

}

=== FILE: strings.dfy ===
/** The string operations of JavaScript that the site relies on, on strings
    as sequences of characters. */
module Strings {

  import opened Options

  /** `s.startsWith(p)`. */
  predicate StartsWith(s: string, p: string)
  {
    |p| <= |s| && s[..|p|] == p
  }

  /** `s.endsWith(p)`. */
  predicate EndsWith(s: string, p: string)
  {
    |p| <= |s| && s[|s| - |p|..] == p
  }

  /** `s.includes(sub)`: `sub` occurs somewhere in `s`. */
  predicate Contains(s: string, sub: string)
  {
    exists i :: 0 <= i <= |s| - |sub| && StartsWith(s[i..], sub)
  }

  /** Every character of a contained string occurs in the containing one. */
  lemma ContainsChars(s: string, sub: string, c: char)
    requires Contains(s, sub) && c in sub
    ensures c in s
  {
    var i :| 0 <= i <= |s| - |sub| && StartsWith(s[i..], sub);
    var k :| 0 <= k < |sub| && sub[k] == c;
    assert s[i + k] == s[i..][..|sub|][k];
  }

  /** Lower-casing of one character: the ASCII capitals move to their small
      letters, every other character is kept. */
  function LowerChar(c: char): char
  {
    if 'A' <= c <= 'Z' then (c as int + 32) as char else c
  }

  /** `s.toLowerCase()`, restricted to the ASCII case mapping. */
  function Lower(s: string): (r: string)
    ensures |r| == |s|
    ensures forall i :: 0 <= i < |r| ==> !('A' <= r[i] <= 'Z')
    ensures forall i :: 0 <= i < |s| ==> !('A' <= s[i] <= 'Z') ==> r[i] == s[i]
    ensures forall i :: 0 <= i < |s| ==> 'A' <= s[i] <= 'Z' ==> r[i] == (s[i] as int + 32) as char
  {
    seq(|s|, i requires 0 <= i < |s| => LowerChar(s[i]))
  }

  /** The characters `String.prototype.trim` removes: the ECMAScript
      WhiteSpace and LineTerminator code points. */
  predicate IsWhiteSpace(c: char)
  {
    c as int in WHITE_SPACE_CODES
  }

  const WHITE_SPACE_CODES: set<int> :=
    {0x09, 0x0A, 0x0B, 0x0C, 0x0D, 0x20, 0xA0, 0x1680,
     0x2000, 0x2001, 0x2002, 0x2003, 0x2004, 0x2005, 0x2006, 0x2007, 0x2008, 0x2009, 0x200A,
     0x2028, 0x2029, 0x202F, 0x205F, 0x3000, 0xFEFF}

  /** Every character of `s` satisfies `p`. */
  predicate All(s: string, p: char -> bool)
  {
    forall i :: 0 <= i < |s| ==> p(s[i])
  }

  predicate AllWhiteSpace(s: string)
  {
    All(s, IsWhiteSpace)
  }

  /** The first position at or after `i` whose character does not satisfy
      `p`, or `|s|` when there is none. */
  function SkipForward(s: string, p: char -> bool, i: nat): (n: nat)
    requires i <= |s|
    ensures i <= n <= |s|
    ensures forall j :: i <= j < n ==> p(s[j])
    ensures n < |s| ==> !p(s[n])
    decreases |s| - i
  {
    if i == |s| || !p(s[i]) then i else SkipForward(s, p, i + 1)
  }

  /** The position just after the last character before `j`, and at or
      after `lo`, that does not satisfy `p`, or `lo` when there is none. */
  function SkipBackward(s: string, p: char -> bool, lo: nat, j: nat): (n: nat)
    requires lo <= j <= |s|
    ensures lo <= n <= j
    ensures forall k :: n <= k < j ==> p(s[k])
    ensures lo < n ==> !p(s[n - 1])
    decreases j
  {
    if j == lo || !p(s[j - 1]) then j else SkipBackward(s, p, lo, j - 1)
  }

  /** `s` is `r` placed at offset `lo` with only characters satisfying `p`
      around it. */
  predicate PaddedAt(s: string, r: string, lo: nat, p: char -> bool)
  {
    && lo + |r| <= |s| && s[lo..lo + |r|] == r
    && All(s[..lo], p) && All(s[lo + |r|..], p)
  }

  /** `r` neither starts nor ends with a character satisfying `p`. */
  predicate Unpadded(r: string, p: char -> bool)
  {
    r == [] || (!p(r[0]) && !p(r[|r| - 1]))
  }

  /** `r` is `s` with the characters satisfying `p` cut from both ends: `s`
      is `r` with only such characters around it, and `r` neither starts nor
      ends with one (so `r` is empty exactly when all of `s` satisfies `p`). */
  ghost predicate Stripped(s: string, r: string, p: char -> bool)
  {
    && (exists lo: nat :: PaddedAt(s, r, lo, p))
    && Unpadded(r, p)
    && (r == [] <==> All(s, p))
  }

  /** `r` is `s` without its surrounding white space. */
  ghost predicate Trimmed(s: string, r: string)
  {
    Stripped(s, r, IsWhiteSpace)
  }

  /** `s.trim()`. */
  function Trim(s: string): (r: string)
    ensures Trimmed(s, r)
  {
    var lo := SkipForward(s, IsWhiteSpace, 0);
    var hi := SkipBackward(s, IsWhiteSpace, lo, |s|);
    StrippedByBounds(s, IsWhiteSpace, lo, hi);
    s[lo..hi]
  }

  /** Cutting at bounds outside which every character satisfies `p`, and
      inside which the end characters do not, strips `s`. */
  lemma StrippedByBounds(s: string, p: char -> bool, lo: nat, hi: nat)
    requires lo <= hi <= |s|
    requires forall i :: 0 <= i < lo ==> p(s[i])
    requires forall i :: hi <= i < |s| ==> p(s[i])
    requires lo < hi ==> !p(s[lo]) && !p(s[hi - 1])
    ensures Stripped(s, s[lo..hi], p)
  {
    AllSlice(s, 0, lo, p);
    AllSlice(s, hi, |s|, p);
    assert s[..lo] == s[0..lo] && s[hi..] == s[hi..|s|];
    assert PaddedAt(s, s[lo..hi], lo, p);
  }

  /** A stretch of characters satisfying `p` satisfies it as a string. */
  lemma AllSlice(s: string, from: nat, to: nat, p: char -> bool)
    requires from <= to <= |s|
    requires forall i :: from <= i < to ==> p(s[i])
    ensures All(s[from..to], p)
  {
    assert forall i :: 0 <= i < to - from ==> s[from..to][i] == s[from + i];
  }

  /** The text after the last `.` of `p`, if `p` has a dot. */
  function Extension(p: string): (r: Option<string>)
    ensures r.None? <==> '.' !in p
    ensures r.Some? ==> '.' !in r.value && EndsWith(p, "." + r.value)
  {
    if p == [] then None
    else if p[|p| - 1] == '.' then Some("")
    else
      match Extension(p[..|p| - 1])
      case None =>
        assert p == p[..|p| - 1] + [p[|p| - 1]];
        None
      case Some(e) =>
        assert p[|p| - (|e| + 2)..] == p[..|p| - 1][|p| - 1 - (|e| + 1)..] + [p[|p| - 1]];
        Some(e + [p[|p| - 1]])
  }

  /** Any path that ends in `.` followed by dot-free text has that text as its
      extension. */
  lemma {:induction false} ExtensionOfSuffix(p: string, e: string)
    requires '.' !in e
    requires EndsWith(p, "." + e)
    ensures Extension(p) == Some(e)
    decreases |e|
  {
    if e == [] {
      assert p[|p| - 1] == ("." + e)[0];
    } else {
      var last := e[|e| - 1];
      var e' := e[..|e| - 1];
      assert p[|p| - 1] == last;
      assert last != '.' by { assert last in e; }
      assert p[..|p| - 1][|p| - 1 - |"." + e'|..] == "." + e';
      ExtensionOfSuffix(p[..|p| - 1], e');
      assert e == e' + [last];
    }
  }

}
